=== FILE: README.md ===
# preql-studio backend: connection and query core in Dafny

This project models the request-processing core of the preql-studio backend
(`backend/main.py`), a small HTTP service that keeps a process-wide registry
of named database connections (each an *executor*: a SQL dialect, an engine
and a preql schema *environment*) and runs queries against them:

- `create_connection` builds an environment (from a full custom model, a
  named public model, or empty), resolves BigQuery credentials and project,
  builds the engine and writes the registry once, at the end;
- `list_connections` lists the registry;
- `get_models` lists the public models and their non-private concepts;
- `run_query` normalises the query text, has preql parse it and generate
  statements, caps each statement's row limit at `STATEMENT_LIMIT = 100`,
  compiles and executes the statements in turn and reports the last one;
- `run_raw_query` sends the text to the engine verbatim.

The preql library (parser, SQL generator, `Environment.parse`), the engines,
Google's credential lookup and `flatten_lineage` are not modelled: they are
function values handed to the model (`Preql.Library`, `Executors.Driver`,
`projectOf`, `flatten`), so every property holds whatever each call returns.
The engine is stateless in this model (see "Left out"). Python
dictionaries are modelled as insertion-ordered entry lists in which assigning
an existing key replaces it in place (`OrderedMaps`), so the listing order
and the `{"_index": i, **row}` merge are exact. HTTP exceptions are the
`HttpError(status, detail)` case of `Schemas.Reply`.

Modules, leaves first: `Wrappers`, `OrderedMaps`, `Strings` (Python `strip`,
`replace`, `split(".")[-1]`, `startswith`, string order), `Sorting` (stable
`list.sort(key=...)`), `Preql`, `Executors`, `Schemas`, `QueryText`
(`safe_format_query`), `Columns` (limit cap and column metadata), `Rows`
(result shaping), `Pipeline` (`run_query`, `run_raw_query`), `Connections`
(`create_connection`, `list_connections`), `Models` (`get_models`).

The model follows the code as written, including these behaviours:

- a full model that fails to parse is re-raised as a 500 (backend/main.py:264-265);
- a blank or whitespace-only query makes `input[-1]` raise inside the parsing
  `try`, so it is a 422 "Parsing error: string index out of range";
- a limit of 0 is falsy and becomes 100; a negative limit is kept;
- on the raw path a driver that returns `None` makes `rs.keys()` raise inside
  the `try`, so the reply is a 500, never an empty result;
- `list_connections` puts the executor's environment in the item's `model`
  field, which the schema declares a string; see "Findings".

## Model

| member | source | states |
|---|---|---|
| `QueryText.FormatQuery` | backend/main.py:195-199 | fails (with the `IndexError` text) exactly when the input is all whitespace; otherwise the result is the stripped input, ends in `;`, and has a `;` appended only when the stripped input lacks one |
| `QueryText.FormatQueryIdempotent` | backend/main.py:195-199 | formatting an already formatted query gives it back unchanged |
| `Strings.Strip` | backend/main.py:196 | the result has no whitespace at either end, and is empty exactly when the input is all whitespace |
| `Strings.StripUnique` | backend/main.py:196 | whitespace, then a non-empty text with no whitespace at either end, then whitespace, strips to exactly that text |
| `Strings.StripIdempotent` | backend/main.py:196 | stripping twice equals stripping once |
| `Columns.EffectiveLimit` | backend/main.py:391-395 | never above 100; unset or 0 gives 100; any other limit L gives a value at most L that is L or 100 (the minimum), so a limit is lowered and never raised |
| `Columns.Clamp` | backend/main.py:391-395 | the statement keeps its columns and plan and its limit becomes exactly `EffectiveLimit` of the old one, hence at most 100 |
| `Columns.ClampIdempotent` | backend/main.py:391-395 | capping a capped statement changes nothing |
| `Columns.DisplayName` | backend/main.py:402-404 | character by character the concept name (default namespace) or the address (other namespaces) with every `.` replaced by `_`; contains no `.` |
| `Columns.DisplayNameExamples` | backend/main.py:402-404 | a column `bar` of namespace `foo` with address `foo.bar` displays as `foo_bar` |
| `Columns.DisplayNameDefaultExample` | backend/main.py:402-404 | a column `baz` of the default namespace displays as `baz`, whatever its address |
| `Columns.OutColumn` | backend/main.py:398-410 | keyed by the raw column name, purpose and datatype copied, display name exactly `DisplayName` of the column (so free of `.`) |
| `Columns.RawColumn` | backend/main.py:330-340 | keyed by the header and named by it, with purpose KEY and datatype STRING |
| `Strings.ReplaceChar` | backend/main.py:402-404 | same length as the input, each replaced character turned into the new one and every other kept |
| `Rows.ShapeRow` | backend/main.py:419-422 | a dictionary whose first key is `_index`; `_index` is the row's position unless the driver row has an `_index` field, whose last value then wins; every other field has the driver row's last value for it |
| `Rows.ShapeResult` | backend/main.py:414-422 | no result set gives empty headers and rows; otherwise the driver's headers and one row per fetched row, row i carrying `_index = i` unless overridden and every other field's last value from the driver row |
| `Pipeline.Step` | backend/main.py:390-410 | a successful step holds the SQL compiled from the capped statement, the driver's result for that SQL and the statement's display columns; it fails exactly when compiling or executing fails, with that failure's message |
| `Pipeline.LastStatementWins` | backend/main.py:386-413 | the statement loop succeeds exactly when every statement does, then holds the last statement's SQL, result set and columns (or the initial empty holders for no statement); a failure is the first failing statement's message |
| `Pipeline.RunStatements` | backend/main.py:386-410 | a successful loop over no statement keeps the initial holders; over some statements it holds exactly the last statement's step result |
| `Pipeline.CompilePhase` | backend/main.py:378-381 | a whitespace-only text fails with the `IndexError` text; any other text is formatted and parsed, and the phase fails with the parser's message or gives the generator's result |
| `Pipeline.RunQuery` | backend/main.py:366-434 | every failure is 403, 422 or 500; 403 exactly for an unknown connection; a 422 detail starts with `Parsing error: `; a result echoes the connection and the query text |
| `Pipeline.RunQueryStatus` | backend/main.py:370-413 | 403 iff the connection is unknown; 422 iff formatting, parsing or generation fails, with detail `Parsing error: ` plus that failure's message; 500 iff some statement fails to compile or execute, with the statement loop's failure message as detail; a result iff every statement succeeds, so no partial result on failure |
| `Pipeline.RunQueryReportsLastStatement` | backend/main.py:386-432 | the reply's SQL, columns, headers and rows are exactly the last statement's; zero statements give `""` and empty columns, headers and rows |
| `Pipeline.ExecutedLimitIsCapped` | backend/main.py:391-396 | the SQL of every executed statement is what the compiler renders for that same statement with only its limit replaced by the capped limit |
| `Pipeline.BlankQueryIsParsingError` | backend/main.py:379-384 | a whitespace-only query on a known connection is a 422 `Parsing error: string index out of range` |
| `Pipeline.RunRawQuery` | backend/main.py:321-363 | 401 exactly for an unknown connection; for a known one, a result exactly when the driver returns a cursor for the verbatim text, a driver failure as a 500 with the driver's message, and no cursor as a 500 with the `'NoneType' object has no attribute 'keys'` message; a result echoes the query as `generated_sql`, its headers are the cursor's keys and its rows are the cursor's rows shaped as on the query path (`_index` first, driver fields after), and every header h has the column (h, {h, STRING, KEY}) |
| `Pipeline.RawPathIgnoresEnvironment` | backend/main.py:325-340 | the raw reply depends only on the connection's engine, never on its environment or dialect |
| `Connections.ParseEnvFromFullModel` | backend/main.py:202-209 | the loop parses each source in list order into the environment built so far, under its alias when the alias is non-empty and into the default namespace otherwise, the first failure aborting; its result equals the recursive `FullModelEnvironment` |
| `Connections.ParseSourcesInOrder` | backend/main.py:202-209 | parsing `a + b` is parsing `a` and then `b` into the resulting environment; a failure in `a` aborts |
| `Connections.SelectEnvironment` | backend/main.py:261-272 | a full model wins; otherwise a truthy model name found in the public models gives that model, any other case an empty environment; only the full model can fail |
| `Connections.ResolveCredentials` | backend/main.py:273-294 | inline JSON, then the secret file, then `GOOGLE_APPLICATION_CREDENTIALS`, then the ambient default, each chosen exactly when all earlier ones are unavailable; the inline source carries `extra["user_or_service_auth_json"]` and the file source the path in `GOOGLE_APPLICATION_CREDENTIALS` |
| `Connections.ResolveProject` | backend/main.py:295-296 | a project in a non-empty `extra` overrides the credentials' project; otherwise the credentials' project stands |
| `Connections.BuildExecutor` | backend/main.py:273-317 | failures are 400; success exactly for DuckDB, or BigQuery with a non-empty resolved project; the executor has the request's dialect and the given environment |
| `Connections.CreateConnection` | backend/main.py:259-318 | on failure (400 or 500) the registry is unchanged; on success the name maps to an executor of the requested dialect; no other name changes; an unsupported dialect always fails |
| `Connections.CreateConnectionKeepsDistinct` | backend/main.py:318 | the registry keeps one entry per name |
| `Connections.CreateConnectionStatus` | backend/main.py:261-317 | 500 exactly when the full model fails to parse, whatever the dialect; 400 exactly when the environment is built but the executor is refused; success otherwise |
| `Connections.CreatedExecutor` | backend/main.py:261-318 | the stored executor has the requested dialect and the selected environment; DuckDB gets the in-memory engine; BigQuery gets the resolved credentials and a non-empty project, the `extra` one when given |
| `Connections.ListConnections` | backend/main.py:242-249 | the listing as evidently intended: one item per registry entry, in registry order, with its name, dialect and environment |
| `Connections.ListConnectionsAsWritten` | backend/main.py:242-249 | the listing as written: succeeds (with no items) exactly when the registry is empty, otherwise fails with 500 |
| `Connections.ListingOneConnectionFails` | backend/main.py:242-249 | a registry holding only the in-memory connection `t1` cannot be listed as written |
| `Connections.ListingFailsAfterCreate` | backend/main.py:242-249 | after any successful creation the listing as written fails with 500 |
| `Connections.ListAfterCreate` | backend/main.py:242-249 | after a successful creation the listing shows the name with its dialect; a new name is appended at the end, a known one keeps the length and order |
| `OrderedMaps.Get` | backend/main.py:325 | `CONNECTIONS.get`: `None` exactly when the key is absent, otherwise a value stored under the key |
| `OrderedMaps.Put` | backend/main.py:318 | an existing key keeps its position in the key order and a new one is appended |
| `OrderedMaps.GetPut` | backend/main.py:318 | after the assignment the key maps to the new value and every other key to what it mapped to before |
| `OrderedMaps.PutKeepsDistinct` | backend/main.py:318 | assignment keeps every key unique |
| `Models.ShortName` | backend/main.py:224-226 | in the default namespace a `.`-free suffix of the name that is either the whole name or preceded by a `.`, that is the part after the last `.`; elsewhere the name itself |
| `Models.ToUI` | backend/main.py:222-235 | key, namespace, datatype, purpose and lineage copied, name shortened, description taken from the metadata when present |
| `Strings.LastSegment` | backend/main.py:224 | `split(".")[-1]`: a `.`-free suffix that is either the whole text (exactly when it has no `.`) or preceded by a `.` |
| `Models.Visible` | backend/main.py:217-221 | no more UI concepts than dictionary entries |
| `Models.VisibleSingle` | backend/main.py:218-221 | a single entry is listed once, as its UI form, exactly when its name does not start with `_` |
| `Models.VisibleAppend` | backend/main.py:217-221 | the listing of `a + b` is the listing of `a` followed by the listing of `b`; with `VisibleSingle`, the list is exactly the non-private entries, once each, in dictionary order |
| `Models.VisibleAllPublic` | backend/main.py:217-235 | with no private concept, every entry is listed, in dictionary order, as its UI form |
| `Models.ModelConcepts` | backend/main.py:217-237 | sorted by namespace plus key, and a permutation of the visible concepts |
| `Models.GetModels` | backend/main.py:212-239 | one model per public model in inventory order, each with its visible concepts sorted by namespace plus key |
| `Models.VisibleMembers` | backend/main.py:218-221 | a UI concept is listed exactly when it comes from a concept whose name does not start with `_` |
| `Models.ListedKeys` | backend/main.py:218-236 | a key is listed exactly when it is stored and its concept is not private |
| `Models.ListedIsStored` | backend/main.py:218-236 | every listed concept is the UI form of the non-private concept stored under its key |
| `Models.ModelConceptsStable` | backend/main.py:237 | concepts with equal sort keys keep their dictionary order |
| `Sorting.SortBy` | backend/main.py:237 | the result is sorted by the key and as long as the input |
| `Sorting.SortByPermutes` | backend/main.py:237 | the result is a permutation of the input |
| `Sorting.SortByIsStable` | backend/main.py:237 | for every key value, the elements carrying it keep their input order |

## Left out

- Wall-clock `duration`, `created_at` and `refreshed_at` (datetime and float arithmetic).
- Google credential loading and BigQuery client construction: only the order of credential sources and the project each reports (`projectOf`) are modelled; an exception raised while loading credentials (a malformed inline JSON, an unreadable file) escapes `create_connection` uncaught and is not modelled.
- `create_engine`, DuckDB and the BigQuery engine URL: an engine is a value naming its dialect, project and credential source.
- `parse_text` mutating the connection's environment in place: the compiler is treated as a pure function, so running a query never changes the registry.
- A cursor's `fetchall()` or `keys()` raising after the execution `try` (for instance for a statement that returns no rows): cursors are plain values.
- Type validation of the request and response schemas by the web framework, other than for `ConnectionListItem.model` (see "Findings").
- `print(e)` before a parsing error is reported: console output only.
- `extra` values other than strings; `extra` is `None` or a dictionary of strings.
- `update_connection`: it awaits the plain function `create_connection`, which returns `None`; it is HTTP plumbing.
- `generate_default_duckdb` and `generate_default_bigquery`: defined but not used by the endpoints.
- `load_pyinstaller_trilogy_files` (filesystem globbing), `terminate`, `exit_app`, the 503 handler and `shutdown_event` (asyncio shutdown), `healthcheck`, the CORS, router and uvicorn wiring and `run()`.
- `backend/build_basic.py`: packaging that shells out to PyInstaller and copies files.
- The value of preql's `DEFAULT_NAMESPACE`: it is a field of `Preql.Library`, since that library is not part of this model.
- `flatten_lineage`: a concept's lineage is whatever the `flatten` parameter returns; that helper module is not part of this model.
- Database state: `Executors.Driver` is a function of the engine and the SQL text alone, so the engine is modelled as stateless. An earlier statement of the same query, or an earlier request such as a raw `CREATE TABLE`, cannot change what a later execution returns, and the same SQL run twice gives the same result.
- Concurrency: requests are modelled one at a time; the registry write is a single step.

## Findings

| source | as written | input that shows it | evidently intended | confidence | as-written member | corrected member |
|---|---|---|---|---|---|---|
| backend/main.py:242-249 | `list_connections` builds `ConnectionListItem(model=value.environment)`, but `model` is declared `str` (line 164); the schema's validation rejects the environment and the uncaught error makes the endpoint answer 500 | any registry with one connection, e.g. the in-memory `t1` just created | each item reports the connection's name, dialect and model | medium, not executed | `Connections.ListConnectionsAsWritten`, `Connections.ListingOneConnectionFails`, `Connections.ListingFailsAfterCreate` | `Connections.ListConnections`, `Connections.ListAfterCreate` |

=== FILE: columns.dfy ===
/** Per-statement shaping on the query path: the row-limit cap and the
    column metadata reported to the client. */
module Columns {
  import opened Wrappers
  import opened Strings
  import opened Preql
  import opened Schemas

  /** `STATEMENT_LIMIT` */
  const StatementLimit: int := 100

  /** `min(int(limit), STATEMENT_LIMIT) if limit else STATEMENT_LIMIT`: an
      unset or zero limit becomes the cap, any other limit is lowered to the
      cap and never raised (a negative limit stays negative). */
  function EffectiveLimit(limit: Option<int>): (r: int)
    ensures r <= StatementLimit
    ensures limit.None? || limit == Some(0) ==> r == StatementLimit
    ensures limit.Some? && limit.value != 0 ==> r <= limit.value && (r == limit.value || r == StatementLimit)
  {
    match limit
    case None => StatementLimit
    case Some(l) => if l == 0 then StatementLimit else if l < StatementLimit then l else StatementLimit
  }

  /** The statement with its limit capped, as it is handed to the compiler. */
  function Clamp(st: Statement): (r: Statement)
    ensures r.outputColumns == st.outputColumns && r.plan == st.plan
    ensures r.limit == Some(EffectiveLimit(st.limit))
    ensures r.limit.Some? && r.limit.value <= StatementLimit
  {
    st.(limit := Some(EffectiveLimit(st.limit)))
  }

  /** Capping an already capped statement changes nothing. */
  lemma ClampIdempotent(st: Statement)
    ensures Clamp(Clamp(st)) == Clamp(st)
  {
  }

  /** The client-facing column name: in the default namespace the concept
      name, elsewhere its full address, with every `.` turned into `_`. */
  function DisplayName(col: OutputColumn, defaultNamespace: string): (r: string)
    ensures '.' !in r
    ensures var source := if col.namespace == defaultNamespace then col.name else col.address;
            |r| == |source|
            && forall i :: 0 <= i < |r| ==> r[i] == (if source[i] == '.' then '_' else source[i])
  {
    ReplaceChar(if col.namespace == defaultNamespace then col.name else col.address, '.', '_')
  }

  /** One entry of `columns` on the query path: keyed by the raw column
      name, with purpose and datatype copied from the compiled column. */
  function OutColumn(col: OutputColumn, defaultNamespace: string): (r: (string, QueryOutColumn))
    ensures r.0 == col.name
    ensures r.1.purpose == col.purpose && r.1.dataType == col.dataType
    ensures r.1.name == DisplayName(col, defaultNamespace)
    ensures '.' !in r.1.name
  {
    (col.name, QueryOutColumn(DisplayName(col, defaultNamespace), col.dataType, col.purpose))
  }

  function OutColumns(cols: seq<OutputColumn>, defaultNamespace: string): (r: seq<(string, QueryOutColumn)>)
    ensures |r| == |cols|
    ensures forall i :: 0 <= i < |cols| ==> r[i] == OutColumn(cols[i], defaultNamespace)
  {
    seq(|cols|, i requires 0 <= i < |cols| => OutColumn(cols[i], defaultNamespace))
  }

  /** The display rule, for example, on a column outside the default
      namespace: its address with `.` turned into `_`. */
  lemma DisplayNameExamples(defaultNamespace: string)
    requires defaultNamespace != "foo"
    ensures DisplayName(OutputColumn("bar", "foo", "foo.bar", Key, StringType), defaultNamespace) == "foo_bar"
  {
    assert ReplaceChar("foo.bar", '.', '_') == "foo_bar";
  }

  /** The display rule, for example, on a column of the default namespace:
      its bare name, whatever its address. */
  lemma DisplayNameDefaultExample(defaultNamespace: string, address: string)
    ensures DisplayName(OutputColumn("baz", defaultNamespace, address, Key, StringType), defaultNamespace) == "baz"
  {
    var a := DisplayName(OutputColumn("baz", defaultNamespace, address, Key, StringType), defaultNamespace);
    assert a[0] == 'b' && a[1] == 'a' && a[2] == 'z';
  }

  /** One entry of `columns` on the raw path: the driver's header, reported
      as a string-typed key. */
  function RawColumn(header: string): (r: (string, QueryOutColumn))
    ensures r.0 == header && r.1.name == header
    ensures r.1.purpose == Key && r.1.dataType == StringType
  {
    (header, QueryOutColumn(header, StringType, Key))
  }
}

=== FILE: connections.dfy ===
/** `create_connection` and `list_connections`: building an executor from a
    request and recording it in the registry. */
module Connections {
  import opened Wrappers
  import opened OrderedMaps
  import opened Preql
  import opened Executors
  import opened Schemas

  const SecretFilePath: string := "/run/secrets/bigquery_auth"
  const MissingProject: string := "BigQuery dialect requires a project to be specified in the extra field"
  const UnsupportedDialect: string := "this dialect type is not supported currently"
  /** The web framework's reply to an exception the endpoint does not catch. */
  const InternalServerError: string := "Internal Server Error"

  /** What the host offers for BigQuery credentials: whether the secret file
      exists, and `GOOGLE_APPLICATION_CREDENTIALS` if it is set. */
  datatype Host = Host(secretFileExists: bool, applicationCredentials: Option<string>)

  /** The reply of a creation request and the registry after it. */
  datatype Created = Created(reply: Reply<()>, registry: Registry)

  /** The namespace a model source is parsed into: its alias, unless the
      alias is empty (falsy), in which case the default one. */
  function SourceNamespace(source: ModelSource): (r: Option<string>)
    ensures r.Some? <==> source.alias != ""
    ensures r.Some? ==> r.value == source.alias
  {
    if source.alias != "" then Some(source.alias) else None
  }

  /** Parses the sources into one environment, one after another; the first
      failure aborts. */
  function ParseSources(lib: Library, env: Environment, sources: seq<ModelSource>): Result<Environment, string>
    decreases |sources|
  {
    if |sources| == 0 then Ok(env)
    else
      var next :- lib.parseSource(env, sources[0].contents, SourceNamespace(sources[0]));
      ParseSources(lib, next, sources[1..])
  }

  /** `parse_env_from_full_model` */
  function FullModelEnvironment(lib: Library, model: FullModel): Result<Environment, string>
  {
    ParseSources(lib, EmptyEnvironment, model.sources)
  }

  /** `parse_env_from_full_model` as a loop over the sources: each is
      parsed into the environment built so far, under its alias when the
      alias is non-empty and into the default namespace otherwise; the
      first failure propagates. It agrees with `FullModelEnvironment`. */
  method ParseEnvFromFullModel(lib: Library, model: FullModel) returns (r: Result<Environment, string>)
    ensures r == FullModelEnvironment(lib, model)
  {
    var env := EmptyEnvironment;
    var i := 0;
    while i < |model.sources|
      invariant 0 <= i <= |model.sources|
      invariant FullModelEnvironment(lib, model) == ParseSources(lib, env, model.sources[i..])
    {
      var source := model.sources[i];
      var parsed := lib.parseSource(env, source.contents, SourceNamespace(source));
      assert model.sources[i..][1..] == model.sources[i + 1..];
      if parsed.Err? {
        return Err(parsed.error);
      }
      env := parsed.value;
      i := i + 1;
    }
    return Ok(env);
  }

  /** Sources are parsed in list order: parsing `a + b` is parsing `a`, then
      parsing `b` into the environment that produced. */
  lemma {:induction false} ParseSourcesInOrder(lib: Library, env: Environment, a: seq<ModelSource>, b: seq<ModelSource>)
    decreases |a|
    ensures ParseSources(lib, env, a + b)
         == match ParseSources(lib, env, a)
            case Err(e) => Err(e)
            case Ok(mid) => ParseSources(lib, mid, b)
  {
    if |a| > 0 {
      assert (a + b)[0] == a[0] && (a + b)[1..] == a[1..] + b;
      var next := lib.parseSource(env, a[0].contents, SourceNamespace(a[0]));
      if next.Ok? {
        ParseSourcesInOrder(lib, next.value, a[1..], b);
      }
    } else {
      assert a + b == b;
    }
  }

  /** The environment of a new connection: the full model when one is
      given, else a copy of the named public model, else an empty one; an
      unknown model name also gives an empty one. Only the full model can
      fail. */
  function SelectEnvironment(lib: Library, inventory: Entries<string, Environment>, req: ConnectionIn)
    : (r: Result<Environment, string>)
    ensures req.fullModel.Some? ==> r == FullModelEnvironment(lib, req.fullModel.value)
    ensures req.fullModel.None? ==> r.Ok?
    ensures req.fullModel.None? && req.model.Some? && req.model.value != ""
            && Get(inventory, req.model.value).Some?
            ==> r.value == Get(inventory, req.model.value).value
    ensures req.fullModel.None? && !(req.model.Some? && req.model.value != "" && Get(inventory, req.model.value).Some?)
            ==> r.value == EmptyEnvironment
  {
    if req.fullModel.Some? then FullModelEnvironment(lib, req.fullModel.value)
    else if req.model.Some? && req.model.value != "" then
      match Get(inventory, req.model.value)
      case Some(env) => Ok(env)
      case None => Ok(EmptyEnvironment)
    else Ok(EmptyEnvironment)
  }

  /** `connection.extra` is truthy: present and not empty. */
  predicate ExtraGiven(extra: Option<map<string, string>>) {
    extra.Some? && |extra.value| > 0
  }

  /** `extra.get("user_or_service_auth_json")` is a non-empty string. */
  predicate InlineCredentialsGiven(extra: Option<map<string, string>>) {
    ExtraGiven(extra) && "user_or_service_auth_json" in extra.value
    && extra.value["user_or_service_auth_json"] != ""
  }

  /** BigQuery credentials, first match wins: inline JSON in `extra`, the
      secret file, the file named by `GOOGLE_APPLICATION_CREDENTIALS`, the
      ambient default. */
  function ResolveCredentials(extra: Option<map<string, string>>, host: Host): (r: CredentialSource)
    ensures r.InlineJson? <==> InlineCredentialsGiven(extra)
    ensures r.SecretFile? <==> !InlineCredentialsGiven(extra) && host.secretFileExists
    ensures r.ApplicationCredentialsFile?
        <==> !InlineCredentialsGiven(extra) && !host.secretFileExists && host.applicationCredentials.Some?
    ensures r.AmbientDefault?
        <==> !InlineCredentialsGiven(extra) && !host.secretFileExists && host.applicationCredentials.None?
    ensures r.InlineJson? ==> r.json == extra.value["user_or_service_auth_json"]
    ensures r.ApplicationCredentialsFile? ==> host.applicationCredentials == Some(r.path)
  {
    if InlineCredentialsGiven(extra) then InlineJson(extra.value["user_or_service_auth_json"])
    else if host.secretFileExists then SecretFile
    else if host.applicationCredentials.Some? then ApplicationCredentialsFile(host.applicationCredentials.value)
    else AmbientDefault
  }

  /** `project = connection.extra.get("project", project)` when `extra` is
      truthy: an explicit project overrides the one the credentials report. */
  function ResolveProject(extra: Option<map<string, string>>, reported: Option<string>): (r: Option<string>)
    ensures ExtraGiven(extra) && "project" in extra.value ==> r == Some(extra.value["project"])
    ensures !(ExtraGiven(extra) && "project" in extra.value) ==> r == reported
  {
    if ExtraGiven(extra) && "project" in extra.value then Some(extra.value["project"]) else reported
  }

  /** The executor for the request's dialect, or the 400 the request earns.
      `projectOf` is the project id each credential source reports. */
  function BuildExecutor(req: ConnectionIn, env: Environment, host: Host, projectOf: CredentialSource -> Option<string>)
    : (r: Reply<Executor>)
    ensures r.HttpError? ==> r.status == 400
    ensures r.Success? ==> r.body.dialect == req.dialect && r.body.environment == env
    ensures r.Success? <==>
              || req.dialect == DuckDb
              || (&& req.dialect == BigQuery
                  && var project := ResolveProject(req.extra, projectOf(ResolveCredentials(req.extra, host)));
                     project.Some? && project.value != "")
  {
    match req.dialect
    case BigQuery =>
      var credentials := ResolveCredentials(req.extra, host);
      var project := ResolveProject(req.extra, projectOf(credentials));
      if project.None? || project.value == "" then HttpError(400, MissingProject)
      else Success(Executor(BigQuery, BigQueryEngine(project.value, credentials), env))
    case DuckDb => Success(Executor(DuckDb, DuckDbInMemory, env))
    case OtherDialect(_) => HttpError(400, UnsupportedDialect)
  }

  /** `create_connection`: the environment is built first, then the
      executor, and the registry is written once, at the end, under the
      request's name. */
  function CreateConnection(
    lib: Library, inventory: Entries<string, Environment>, host: Host,
    projectOf: CredentialSource -> Option<string>, registry: Registry, req: ConnectionIn)
    : (r: Created)
    ensures r.reply.HttpError? ==> r.registry == registry
    ensures r.reply.HttpError? ==> r.reply.status in {400, 500}
    ensures r.reply.Success? ==> Get(r.registry, req.name).Some? && Get(r.registry, req.name).value.dialect == req.dialect
    ensures forall n :: n != req.name ==> Get(r.registry, n) == Get(registry, n)
    ensures req.dialect.OtherDialect? ==> r.reply.HttpError?
  {
    match SelectEnvironment(lib, inventory, req)
    case Err(e) => Created(HttpError(500, e), registry)
    case Ok(env) =>
      match BuildExecutor(req, env, host, projectOf)
      case HttpError(status, detail) => Created(HttpError(status, detail), registry)
      case Success(executor) =>
        var written := Put(registry, req.name, executor);
        GetPut(registry, req.name, executor, req.name);
        assert forall n :: n != req.name ==> Get(written, n) == Get(registry, n) by {
          forall n | n != req.name ensures Get(written, n) == Get(registry, n) {
            GetPut(registry, req.name, executor, n);
          }
        }
        Created(Success(()), written)
  }

  /** The registry stays a dictionary: one entry per name. */
  lemma CreateConnectionKeepsDistinct(
    lib: Library, inventory: Entries<string, Environment>, host: Host,
    projectOf: CredentialSource -> Option<string>, registry: Registry, req: ConnectionIn)
    requires DistinctKeys(registry)
    ensures DistinctKeys(CreateConnection(lib, inventory, host, projectOf, registry, req).registry)
  {
    var r := CreateConnection(lib, inventory, host, projectOf, registry, req);
    if r.reply.Success? {
      var executor := BuildExecutor(req, SelectEnvironment(lib, inventory, req).value, host, projectOf).body;
      PutKeepsDistinct(registry, req.name, executor);
    }
  }

  /** Creation's status: 500 exactly when the full model fails to parse
      (whatever the dialect), 400 exactly when the environment was built but
      the dialect is unsupported or BigQuery has no project. */
  lemma CreateConnectionStatus(
    lib: Library, inventory: Entries<string, Environment>, host: Host,
    projectOf: CredentialSource -> Option<string>, registry: Registry, req: ConnectionIn)
    ensures var r := CreateConnection(lib, inventory, host, projectOf, registry, req).reply;
            var env := SelectEnvironment(lib, inventory, req);
            && (r.HttpError? && r.status == 500 <==> req.fullModel.Some? && env.Err?)
            && (r.HttpError? && r.status == 400 <==> env.Ok? && BuildExecutor(req, env.value, host, projectOf).HttpError?)
            && (r.Success? <==> env.Ok? && BuildExecutor(req, env.value, host, projectOf).Success?)
  {
  }

  /** After a successful creation the connection's executor has the
      request's dialect and the selected environment; for BigQuery its
      engine uses the resolved credentials and a non-empty project, the
      one in `extra` when `extra` names one. */
  lemma CreatedExecutor(
    lib: Library, inventory: Entries<string, Environment>, host: Host,
    projectOf: CredentialSource -> Option<string>, registry: Registry, req: ConnectionIn)
    requires CreateConnection(lib, inventory, host, projectOf, registry, req).reply.Success?
    ensures var ex := Get(CreateConnection(lib, inventory, host, projectOf, registry, req).registry, req.name);
            && SelectEnvironment(lib, inventory, req).Ok?
            && ex == Some(Executor(req.dialect, ex.value.engine, SelectEnvironment(lib, inventory, req).value))
            && (req.dialect == DuckDb ==> ex.value.engine == DuckDbInMemory)
            && (req.dialect == BigQuery ==>
                  && ex.value.engine.BigQueryEngine?
                  && ex.value.engine.credentials == ResolveCredentials(req.extra, host)
                  && ex.value.engine.project != ""
                  && (ExtraGiven(req.extra) && "project" in req.extra.value
                      ==> ex.value.engine.project == req.extra.value["project"])
                  && (!(ExtraGiven(req.extra) && "project" in req.extra.value)
                      ==> Some(ex.value.engine.project) == projectOf(ex.value.engine.credentials)))
  {
    var env := SelectEnvironment(lib, inventory, req).value;
    var executor := BuildExecutor(req, env, host, projectOf).body;
    GetPut(registry, req.name, executor, req.name);
  }

  /** `list_connections` as written: each item is built with the
      executor's environment as `model`, a field the schema declares `str`;
      schema validation rejects it, the endpoint does not catch the error,
      so any non-empty registry makes the listing fail with a 500. */
  function ListConnectionsAsWritten(registry: Registry): (r: Reply<seq<ConnectionListItem>>)
    ensures r.Success? <==> |registry| == 0
    ensures r.Success? ==> r.body == []
    ensures r.HttpError? ==> r == HttpError(500, InternalServerError)
  {
    if |registry| == 0 then Success([]) else HttpError(500, InternalServerError)
  }

  /** The listing as written fails for the registry that the in-memory
      connection `t1` alone makes up. */
  lemma ListingOneConnectionFails()
    ensures ListConnectionsAsWritten([("t1", Executor(DuckDb, DuckDbInMemory, EmptyEnvironment))])
         == HttpError(500, InternalServerError)
  {
  }

  /** As written, every successful creation leaves a registry that cannot be
      listed. */
  lemma ListingFailsAfterCreate(
    lib: Library, inventory: Entries<string, Environment>, host: Host,
    projectOf: CredentialSource -> Option<string>, registry: Registry, req: ConnectionIn)
    requires CreateConnection(lib, inventory, host, projectOf, registry, req).reply.Success?
    ensures ListConnectionsAsWritten(CreateConnection(lib, inventory, host, projectOf, registry, req).registry)
         == HttpError(500, InternalServerError)
  {
    var after := CreateConnection(lib, inventory, host, projectOf, registry, req).registry;
    assert req.name in Keys(after);
  }

  /** `list_connections` as evidently intended: one item per registry
      entry, in registry order, reporting the connection's model. */
  function ListConnections(registry: Registry): (r: seq<ConnectionListItem>)
    ensures |r| == |registry|
    ensures forall i :: 0 <= i < |r| ==>
              r[i] == ConnectionListItem(registry[i].0, registry[i].1.dialect, registry[i].1.environment)
  {
    seq(|registry|, i requires 0 <= i < |registry| => ConnectionListItem(registry[i].0, registry[i].1.dialect, registry[i].1.environment))
  }

  /** After a successful creation the listing shows the connection with its
      dialect; a new name adds one item at the end, a known name keeps the
      listing's length and its position. */
  lemma ListAfterCreate(
    lib: Library, inventory: Entries<string, Environment>, host: Host,
    projectOf: CredentialSource -> Option<string>, registry: Registry, req: ConnectionIn)
    requires CreateConnection(lib, inventory, host, projectOf, registry, req).reply.Success?
    ensures var after := ListConnections(CreateConnection(lib, inventory, host, projectOf, registry, req).registry);
            && (exists i :: 0 <= i < |after| && after[i].name == req.name && after[i].dialect == req.dialect)
            && (req.name in Keys(registry) ==>
                  && |after| == |registry|
                  && forall i :: 0 <= i < |registry| ==> after[i].name == registry[i].0)
            && (req.name !in Keys(registry) ==> |after| == |registry| + 1 && after[|registry|].name == req.name)
  {
    var created := CreateConnection(lib, inventory, host, projectOf, registry, req);
    var ex := Get(created.registry, req.name).value;
    var i :| 0 <= i < |created.registry| && created.registry[i] == (req.name, ex);
    assert ListConnections(created.registry)[i].name == req.name;
  }
}

=== FILE: executors.dfy ===
/** Executors (dialect, engine, environment), the SQL engines behind them
    and the process-wide connection registry. */
module Executors {
  import opened Wrappers
  import opened OrderedMaps
  import opened Preql

  /** A field value in a fetched row. */
  datatype Value = NullValue | IntValue(i: int) | TextValue(s: string) | OtherValue(repr: string)

  /** What `engine.execute` returns: `keys()` and `fetchall()`, each row
      given by its `items()` in order. */
  datatype Cursor = Cursor(keys: seq<string>, rows: seq<seq<(string, Value)>>)

  /** Where BigQuery credentials came from. */
  datatype CredentialSource =
    | InlineJson(json: string)
    | SecretFile
    | ApplicationCredentialsFile(path: string)
    | AmbientDefault

  /** `create_engine("duckdb:///:memory:")` or a BigQuery engine bound to a
      project and a credential source. */
  datatype Engine = DuckDbInMemory | BigQueryEngine(project: string, credentials: CredentialSource)

  datatype Executor = Executor(dialect: Dialect, engine: Engine, environment: Environment)

  /** `engine.execute(sql)`: fails with the driver's message, or returns a
      cursor, or returns `None`. */
  type Driver = (Engine, string) -> Result<Option<Cursor>, string>

  /** `CONNECTIONS`: executors by connection name. */
  type Registry = Entries<string, Executor>
}

=== FILE: models.dfy ===
/** `get_models`: the public models and their visible concepts as the UI
    lists them. */
module Models {
  import opened Wrappers
  import opened OrderedMaps
  import opened Strings
  import opened Sorting
  import opened Preql
  import opened Schemas

  /** A concept whose name starts with `_` is private and not listed. */
  predicate IsPrivate(c: Concept) {
    StartsWith(c.name, "_")
  }

  /** The listed name: in the default namespace only the text after the
      last `.`, elsewhere the concept's name as it is. */
  function ShortName(c: Concept, defaultNamespace: string): (r: string)
    ensures c.namespace == defaultNamespace ==> '.' !in r && |r| <= |c.name| && r == c.name[|c.name| - |r|..]
    ensures c.namespace == defaultNamespace && |r| < |c.name| ==> c.name[|c.name| - |r| - 1] == '.'
    ensures c.namespace != defaultNamespace ==> r == c.name
    ensures '.' !in c.name ==> r == c.name
  {
    if c.namespace == defaultNamespace then LastSegment(c.name, '.') else c.name
  }

  /** The `UIConcept` for the concept stored under `key`. */
  function ToUI<L>(key: string, c: Concept, defaultNamespace: string, flatten: Concept -> L): (r: UIConcept<L>)
    ensures r.key == key && r.namespace == c.namespace
    ensures r.dataType == c.dataType && r.purpose == c.purpose && r.lineage == flatten(c)
    ensures r.name == ShortName(c, defaultNamespace)
    ensures r.description == (if c.metadata.Some? then c.metadata.value.description else None)
  {
    UIConcept(
      ShortName(c, defaultNamespace), c.dataType, c.purpose,
      if c.metadata.Some? then c.metadata.value.description else None,
      c.namespace, key, flatten(c))
  }

  /** The UI concepts of the non-private concepts, in dictionary order. */
  function Visible<L>(concepts: Entries<string, Concept>, defaultNamespace: string, flatten: Concept -> L)
    : (r: seq<UIConcept<L>>)
    ensures |r| <= |concepts|
  {
    if |concepts| == 0 then []
    else
      var (key, c) := concepts[|concepts| - 1];
      Visible(concepts[..|concepts| - 1], defaultNamespace, flatten)
      + (if IsPrivate(c) then [] else [ToUI(key, c, defaultNamespace, flatten)])
  }

  /** The key `final_concepts` is sorted by. */
  function SortKey<L>(u: UIConcept<L>): string {
    u.namespace + u.key
  }

  /** The concept list of one model: the visible concepts sorted by
      namespace plus key, ties kept in dictionary order. */
  function ModelConcepts<L(==)>(env: Environment, defaultNamespace: string, flatten: Concept -> L)
    : (r: seq<UIConcept<L>>)
    ensures SortedBy(r, SortKey)
    ensures multiset(r) == multiset(Visible(env.concepts, defaultNamespace, flatten))
  {
    SortByPermutes(Visible(env.concepts, defaultNamespace, flatten), SortKey);
    SortBy(Visible(env.concepts, defaultNamespace, flatten), SortKey)
  }

  /** `get_models`: one model per public model, in inventory order. */
  function GetModels<L(==)>(inventory: Entries<string, Environment>, defaultNamespace: string, flatten: Concept -> L)
    : (r: seq<ModelOut<L>>)
    ensures |r| == |inventory|
    ensures forall i :: 0 <= i < |r| ==> r[i].name == inventory[i].0
    ensures forall i :: 0 <= i < |r| ==>
              && SortedBy(r[i].concepts, SortKey)
              && multiset(r[i].concepts) == multiset(Visible(inventory[i].1.concepts, defaultNamespace, flatten))
  {
    seq(|inventory|, i requires 0 <= i < |inventory| =>
      ModelOut(inventory[i].0, ModelConcepts(inventory[i].1, defaultNamespace, flatten)))
  }

  /** A UI concept is visible exactly when it comes from a non-private
      concept of the dictionary. */
  lemma {:induction false} VisibleMembers<L>(
    concepts: Entries<string, Concept>, defaultNamespace: string, flatten: Concept -> L, u: UIConcept<L>)
    ensures u in Visible(concepts, defaultNamespace, flatten)
        <==> exists i :: 0 <= i < |concepts| && !IsPrivate(concepts[i].1)
                          && u == ToUI(concepts[i].0, concepts[i].1, defaultNamespace, flatten)
  {
    if |concepts| > 0 {
      var n := |concepts| - 1;
      var init := concepts[..n];
      var (key, c) := concepts[n];
      var tail := if IsPrivate(c) then [] else [ToUI(key, c, defaultNamespace, flatten)];
      assert Visible(concepts, defaultNamespace, flatten) == Visible(init, defaultNamespace, flatten) + tail;
      VisibleMembers(init, defaultNamespace, flatten, u);
      assert forall i :: 0 <= i < |init| ==> init[i] == concepts[i];
      if u in tail {
        assert !IsPrivate(concepts[n].1) && u == ToUI(concepts[n].0, concepts[n].1, defaultNamespace, flatten);
      }
      if exists i :: 0 <= i < |concepts| && !IsPrivate(concepts[i].1)
                     && u == ToUI(concepts[i].0, concepts[i].1, defaultNamespace, flatten) {
        var i :| 0 <= i < |concepts| && !IsPrivate(concepts[i].1)
                 && u == ToUI(concepts[i].0, concepts[i].1, defaultNamespace, flatten);
        if i == n {
          assert u in tail;
        } else {
          assert init[i] == concepts[i];
        }
      }
    }
  }

  /** One dictionary entry is listed once, as its UI form, unless it is
      private. */
  lemma VisibleSingle<L>(key: string, c: Concept, defaultNamespace: string, flatten: Concept -> L)
    ensures Visible([(key, c)], defaultNamespace, flatten)
         == if IsPrivate(c) then [] else [ToUI(key, c, defaultNamespace, flatten)]
  {
  }

  /** The listing of a dictionary is the listing of its first entries
      followed by the listing of the rest: with `VisibleSingle` this fixes
      the listing of every dictionary, entry by entry in dictionary order. */
  lemma {:induction false} VisibleAppend<L>(
    a: Entries<string, Concept>, b: Entries<string, Concept>, defaultNamespace: string, flatten: Concept -> L)
    ensures Visible(a + b, defaultNamespace, flatten)
         == Visible(a, defaultNamespace, flatten) + Visible(b, defaultNamespace, flatten)
    decreases |b|
  {
    if |b| == 0 {
      assert a + b == a;
    } else {
      var n := |b| - 1;
      var tail := if IsPrivate(b[n].1) then [] else [ToUI(b[n].0, b[n].1, defaultNamespace, flatten)];
      assert (a + b)[..|a + b| - 1] == a + b[..n];
      assert (a + b)[|a + b| - 1] == b[n];
      VisibleAppend(a, b[..n], defaultNamespace, flatten);
      assert Visible(a + b, defaultNamespace, flatten)
          == Visible(a + b[..n], defaultNamespace, flatten) + tail;
      assert Visible(b, defaultNamespace, flatten) == Visible(b[..n], defaultNamespace, flatten) + tail;
    }
  }

  /** With no private concept, every entry is listed, in dictionary order. */
  lemma {:induction false} VisibleAllPublic<L>(
    concepts: Entries<string, Concept>, defaultNamespace: string, flatten: Concept -> L)
    requires forall i :: 0 <= i < |concepts| ==> !IsPrivate(concepts[i].1)
    ensures |Visible(concepts, defaultNamespace, flatten)| == |concepts|
    ensures forall i :: 0 <= i < |concepts| ==>
              Visible(concepts, defaultNamespace, flatten)[i]
              == ToUI(concepts[i].0, concepts[i].1, defaultNamespace, flatten)
  {
    if |concepts| > 0 {
      var init := concepts[..|concepts| - 1];
      VisibleAllPublic(init, defaultNamespace, flatten);
      assert forall i :: 0 <= i < |init| ==> init[i] == concepts[i];
    }
  }

  /** Under the dictionary invariant a key is listed exactly when it is
      stored and its concept is not private. */
  lemma ListedKeys<L>(env: Environment, defaultNamespace: string, flatten: Concept -> L, key: string)
    requires DistinctKeys(env.concepts)
    ensures (exists u :: u in ModelConcepts(env, defaultNamespace, flatten) && u.key == key)
        <==> Get(env.concepts, key).Some? && !IsPrivate(Get(env.concepts, key).value)
  {
    if exists u :: u in ModelConcepts(env, defaultNamespace, flatten) && u.key == key {
      var u :| u in ModelConcepts(env, defaultNamespace, flatten) && u.key == key;
      ListedIsStored(env, defaultNamespace, flatten, u);
    }
    if Get(env.concepts, key).Some? && !IsPrivate(Get(env.concepts, key).value) {
      StoredKeyIsListed(env, defaultNamespace, flatten, key);
    }
  }

  /** Every listed concept is the UI form of the concept stored under its
      key, and that concept is not private. */
  lemma ListedIsStored<L>(env: Environment, defaultNamespace: string, flatten: Concept -> L, u: UIConcept<L>)
    requires DistinctKeys(env.concepts)
    requires u in ModelConcepts(env, defaultNamespace, flatten)
    ensures Get(env.concepts, u.key).Some? && !IsPrivate(Get(env.concepts, u.key).value)
    ensures u == ToUI(u.key, Get(env.concepts, u.key).value, defaultNamespace, flatten)
  {
    var listed := ModelConcepts(env, defaultNamespace, flatten);
    var visible := Visible(env.concepts, defaultNamespace, flatten);
    assert u in multiset(listed);
    assert u in visible;
    VisibleMembers(env.concepts, defaultNamespace, flatten, u);
    var i :| 0 <= i < |env.concepts| && !IsPrivate(env.concepts[i].1)
             && u == ToUI(env.concepts[i].0, env.concepts[i].1, defaultNamespace, flatten);
    GetAt(env.concepts, i);
  }

  lemma StoredKeyIsListed<L>(env: Environment, defaultNamespace: string, flatten: Concept -> L, key: string)
    requires Get(env.concepts, key).Some? && !IsPrivate(Get(env.concepts, key).value)
    ensures exists u :: u in ModelConcepts(env, defaultNamespace, flatten) && u.key == key
  {
    var c := Get(env.concepts, key).value;
    var j :| 0 <= j < |env.concepts| && env.concepts[j] == (key, c);
    var u := ToUI(key, c, defaultNamespace, flatten);
    VisibleMembers(env.concepts, defaultNamespace, flatten, u);
    assert u in Visible(env.concepts, defaultNamespace, flatten);
    assert u in multiset(ModelConcepts(env, defaultNamespace, flatten));
  }

  /** Sorting is stable: concepts with equal sort keys keep their
      dictionary order. */
  lemma ModelConceptsStable<L>(env: Environment, defaultNamespace: string, flatten: Concept -> L, k: string)
    ensures WithKey(ModelConcepts(env, defaultNamespace, flatten), SortKey, k)
         == WithKey(Visible(env.concepts, defaultNamespace, flatten), SortKey, k)
  {
    SortByIsStable(Visible(env.concepts, defaultNamespace, flatten), SortKey, k);
  }
}

=== FILE: ordered_maps.dfy ===
/** Python dictionaries: a sequence of (key, value) entries in insertion
    order. Assigning to a key that is already present replaces its value in
    place; a new key is appended at the end. */
module OrderedMaps {
  import opened Wrappers

  type Entries<K, V> = seq<(K, V)>

  function Keys<K, V>(m: Entries<K, V>): (ks: seq<K>)
    ensures |ks| == |m|
    ensures forall i :: 0 <= i < |m| ==> ks[i] == m[i].0
  {
    seq(|m|, i requires 0 <= i < |m| => m[i].0)
  }

  lemma KeysCons<K, V>(e: (K, V), t: Entries<K, V>)
    ensures Keys([e] + t) == [e.0] + Keys(t)
  {
  }

  /** The dictionary invariant: no key occurs twice. */
  predicate DistinctKeys<K(==), V>(m: Entries<K, V>) {
    forall i, j :: 0 <= i < j < |m| ==> m[i].0 != m[j].0
  }

  /** `d.get(k)`: the value stored under `k`, if any. */
  function Get<K(==), V>(m: Entries<K, V>, k: K): (r: Option<V>)
    ensures r.None? <==> k !in Keys(m)
    ensures r.Some? ==> (k, r.value) in m
  {
    if |m| == 0 then None
    else if m[0].0 == k then Some(m[0].1)
    else
      var r := Get(m[1..], k);
      KeysCons(m[0], m[1..]);
      assert m == [m[0]] + m[1..];
      r
  }

  /** Looking a key up in an entry list that starts with `e`. */
  lemma GetCons<K, V>(e: (K, V), t: Entries<K, V>, k: K)
    ensures Get([e] + t, k) == if e.0 == k then Some(e.1) else Get(t, k)
  {
    assert ([e] + t)[1..] == t;
  }

  /** `d[k] = v`: an existing key keeps its position, a new one is
      appended. */
  function Put<K(==), V>(m: Entries<K, V>, k: K, v: V): (r: Entries<K, V>)
    ensures Keys(r) == if k in Keys(m) then Keys(m) else Keys(m) + [k]
  {
    if |m| == 0 then [(k, v)]
    else
      KeysCons(m[0], m[1..]);
      assert m == [m[0]] + m[1..];
      if m[0].0 == k then
        KeysCons((k, v), m[1..]);
        [(k, v)] + m[1..]
      else
        var tail := Put(m[1..], k, v);
        KeysCons(m[0], tail);
        [m[0]] + tail
  }

  /** After `d[k] = v`, `k` maps to `v` and every other key to what it
      mapped to before. */
  lemma {:induction false} GetPut<K, V>(m: Entries<K, V>, k: K, v: V, j: K)
    ensures Get(Put(m, k, v), j) == if j == k then Some(v) else Get(m, j)
  {
    if |m| > 0 {
      assert m == [m[0]] + m[1..];
      GetCons(m[0], m[1..], j);
      if m[0].0 == k {
        GetCons((k, v), m[1..], j);
      } else {
        GetPut(m[1..], k, v, j);
        GetCons(m[0], Put(m[1..], k, v), j);
      }
    }
  }

  /** Assignment keeps the dictionary invariant. */
  lemma PutKeepsDistinct<K(!new), V>(m: Entries<K, V>, k: K, v: V)
    requires DistinctKeys(m)
    ensures DistinctKeys(Put(m, k, v))
  {
    var r := Put(m, k, v);
    forall i, j | 0 <= i < j < |r| ensures r[i].0 != r[j].0 {
      assert r[i].0 == Keys(r)[i] && r[j].0 == Keys(r)[j];
      if k !in Keys(m) && j == |m| {
        assert Keys(r)[i] == Keys(m)[i];
      } else {
        assert Keys(r)[i] == Keys(m)[i] && Keys(r)[j] == Keys(m)[j];
      }
    }
  }

  /** The value of the last pair in `pairs` whose key is `k`. */
  function LastValue<K(==), V>(pairs: seq<(K, V)>, k: K): (r: Option<V>)
    ensures r.None? <==> k !in Keys(pairs)
    ensures r.Some? ==> (k, r.value) in pairs
  {
    if |pairs| == 0 then None
    else if pairs[|pairs| - 1].0 == k then Some(pairs[|pairs| - 1].1)
    else
      var init := pairs[..|pairs| - 1];
      assert Keys(pairs) == Keys(init) + [pairs[|pairs| - 1].0];
      assert pairs == init + [pairs[|pairs| - 1]];
      LastValue(init, k)
  }

  /** `d.update(pairs)`, i.e. `d[k] = v` for every pair in order, so a
      later pair overrides an earlier one and both override `m`. */
  function PutAll<K(==,!new), V>(m: Entries<K, V>, pairs: seq<(K, V)>): (r: Entries<K, V>)
    ensures forall j :: Get(r, j) == (if LastValue(pairs, j).Some? then LastValue(pairs, j) else Get(m, j))
    ensures Keys(m) <= Keys(r)
    ensures DistinctKeys(m) ==> DistinctKeys(r)
  {
    if |pairs| == 0 then m
    else
      var last := pairs[|pairs| - 1];
      var prefix := PutAll(m, pairs[..|pairs| - 1]);
      forall j ensures Get(Put(prefix, last.0, last.1), j) == if j == last.0 then Some(last.1) else Get(prefix, j) {
        GetPut(prefix, last.0, last.1, j);
      }
      assert DistinctKeys(m) ==> DistinctKeys(Put(prefix, last.0, last.1)) by {
        if DistinctKeys(m) { PutKeepsDistinct(prefix, last.0, last.1); }
      }
      Put(prefix, last.0, last.1)
  }

  /** `dict(pairs)`. */
  function FromPairs<K(==,!new), V>(pairs: seq<(K, V)>): (r: Entries<K, V>)
    ensures forall j :: Get(r, j) == LastValue(pairs, j)
    ensures DistinctKeys(r)
  {
    PutAll([], pairs)
  }

  /** In a dictionary the entry at position `i` is what its key looks up. */
  lemma GetAt<K, V>(m: Entries<K, V>, i: int)
    requires DistinctKeys(m) && 0 <= i < |m|
    ensures Get(m, m[i].0) == Some(m[i].1)
  {
    assert Keys(m)[i] == m[i].0;
    var j :| 0 <= j < |m| && m[j] == (m[i].0, Get(m, m[i].0).value);
    assert i == j;
  }

  /** In a dictionary the first and the last entry for a key are the same. */
  lemma GetIsLastValue<K, V>(m: Entries<K, V>, k: K)
    requires DistinctKeys(m)
    ensures LastValue(m, k) == Get(m, k)
  {
    if LastValue(m, k).Some? {
      var i :| 0 <= i < |m| && m[i] == (k, LastValue(m, k).value);
      GetAt(m, i);
    }
  }
}

=== FILE: pipeline.dfy ===
/** The two query endpoints: `run_query` (compile, then execute every
    statement in turn) and `run_raw_query` (execute the text as given). */
module Pipeline {
  import opened Wrappers
  import opened OrderedMaps
  import opened Strings
  import opened QueryText
  import opened Preql
  import opened Executors
  import opened Schemas
  import opened Columns
  import opened Rows

  const NotLiveConnection: string := "Not a valid live connection. Refresh connection, then retry."
  const NotValidConnection: string := "Not a valid connection"
  const ParsingErrorPrefix: string := "Parsing error: "
  /** `str(e)` of the `AttributeError` raised by `rs.keys()` on `None`. */
  const NoKeysMessage: string := "'NoneType' object has no attribute 'keys'"

  /** What the statement loop keeps: `compiled_sql`, `rs` and `outputs`. */
  datatype Executed = Executed(sql: string, rs: Option<Cursor>, columns: seq<(string, QueryOutColumn)>)

  /** The holders before the first statement runs. */
  const NothingExecuted: Executed := Executed("", None, [])

  /** `safe_format_query`, `parse_text` and `generate_queries`: the part of
      `run_query` whose failures are reported as parsing errors. */
  function CompilePhase(lib: Library, ex: Executor, text: string): (r: Result<seq<Statement>, string>)
    ensures AllSpace(text) ==> r == Err(IndexErrorMessage)
    ensures !AllSpace(text) ==>
              r == match lib.parseText(FormatQuery(text).value, ex.environment)
                   case Err(e) => Err(e)
                   case Ok(parsed) => lib.generateQueries(ex.dialect, ex.environment, parsed)
  {
    var formatted :- FormatQuery(text);
    var parsed :- lib.parseText(formatted, ex.environment);
    lib.generateQueries(ex.dialect, ex.environment, parsed)
  }

  /** One turn of the statement loop: cap the limit, compile, execute, and
      build the column metadata. */
  function Step(lib: Library, driver: Driver, ex: Executor, st: Statement): (r: Result<Executed, string>)
    ensures r.Ok? ==> r.value.columns == OutColumns(st.outputColumns, lib.defaultNamespace)
    ensures r.Ok? ==> lib.compileStatement(ex.dialect, Clamp(st)) == Ok(r.value.sql)
                      && driver(ex.engine, r.value.sql) == Ok(r.value.rs)
    ensures var compiled := lib.compileStatement(ex.dialect, Clamp(st));
            && (r.Err? <==> compiled.Err? || driver(ex.engine, compiled.value).Err?)
            && (r.Err? ==> r.error == if compiled.Err? then compiled.error else driver(ex.engine, compiled.value).error)
  {
    var sql :- lib.compileStatement(ex.dialect, Clamp(st));
    var rs :- driver(ex.engine, sql);
    Ok(Executed(sql, rs, OutColumns(st.outputColumns, lib.defaultNamespace)))
  }

  /** The statement loop: every statement overwrites the holders, and the
      first failure ends the loop. */
  function RunStatements(lib: Library, driver: Driver, ex: Executor, stmts: seq<Statement>, acc: Executed)
    : (r: Result<Executed, string>)
    ensures r.Ok? && |stmts| == 0 ==> r.value == acc
    ensures r.Ok? && |stmts| > 0 ==> Step(lib, driver, ex, stmts[|stmts| - 1]) == Ok(r.value)
  {
    if |stmts| == 0 then Ok(acc)
    else
      match Step(lib, driver, ex, stmts[0])
      case Err(e) => Err(e)
      case Ok(executed) => RunStatements(lib, driver, ex, stmts[1..], executed)
  }

  /** Only the last statement survives: the loop succeeds exactly when
      every statement does, it then holds the last statement's SQL, result
      set and columns (or what it started with when there is none), and a
      failure is the failure of the first statement that fails. */
  lemma {:induction false} LastStatementWins(
    lib: Library, driver: Driver, ex: Executor, stmts: seq<Statement>, acc: Executed)
    ensures RunStatements(lib, driver, ex, stmts, acc).Ok?
        <==> forall i :: 0 <= i < |stmts| ==> Step(lib, driver, ex, stmts[i]).Ok?
    ensures RunStatements(lib, driver, ex, stmts, acc).Ok? && |stmts| == 0
        ==> RunStatements(lib, driver, ex, stmts, acc).value == acc
    ensures RunStatements(lib, driver, ex, stmts, acc).Ok? && |stmts| > 0
        ==> RunStatements(lib, driver, ex, stmts, acc).value == Step(lib, driver, ex, stmts[|stmts| - 1]).value
    ensures RunStatements(lib, driver, ex, stmts, acc).Err?
        ==> exists i :: 0 <= i < |stmts|
              && Step(lib, driver, ex, stmts[i]) == Err(RunStatements(lib, driver, ex, stmts, acc).error)
              && forall j :: 0 <= j < i ==> Step(lib, driver, ex, stmts[j]).Ok?
  {
    if |stmts| > 0 {
      var first := Step(lib, driver, ex, stmts[0]);
      if first.Ok? {
        var rest := stmts[1..];
        LastStatementWins(lib, driver, ex, rest, first.value);
        assert forall i :: 1 <= i < |stmts| ==> stmts[i] == rest[i - 1];
        if RunStatements(lib, driver, ex, stmts, acc).Err? {
          var i :| 0 <= i < |rest|
                   && Step(lib, driver, ex, rest[i]) == Err(RunStatements(lib, driver, ex, rest, first.value).error)
                   && forall j :: 0 <= j < i ==> Step(lib, driver, ex, rest[j]).Ok?;
          assert Step(lib, driver, ex, stmts[i + 1]) == Step(lib, driver, ex, rest[i]);
          assert forall j :: 0 <= j < i + 1 ==> Step(lib, driver, ex, stmts[j]).Ok? by {
            forall j | 0 <= j < i + 1 ensures Step(lib, driver, ex, stmts[j]).Ok? {
              if j > 0 {
                assert stmts[j] == rest[j - 1];
              }
            }
          }
        }
        if RunStatements(lib, driver, ex, rest, first.value).Ok? {
          assert forall i :: 0 <= i < |stmts| ==> Step(lib, driver, ex, stmts[i]).Ok? by {
            forall i | 0 <= i < |stmts| ensures Step(lib, driver, ex, stmts[i]).Ok? {
              if i > 0 {
                assert stmts[i] == rest[i - 1];
              }
            }
          }
        }
      }
    }
  }

  /** `run_query`. */
  function RunQuery(lib: Library, driver: Driver, registry: Registry, q: QueryIn): (r: Reply<QueryOut>)
    ensures r.HttpError? ==> r.status in {403, 422, 500}
    ensures Get(registry, q.connection).None? <==> r == HttpError(403, NotLiveConnection)
    ensures r.HttpError? && r.status == 422 ==> StartsWith(r.detail, ParsingErrorPrefix)
    ensures r.Success? ==> r.body.connection == q.connection && r.body.query == q.query
  {
    match Get(registry, q.connection)
    case None => HttpError(403, NotLiveConnection)
    case Some(ex) =>
      match CompilePhase(lib, ex, q.query)
      case Err(e) => HttpError(422, ParsingErrorPrefix + e)
      case Ok(stmts) =>
        match RunStatements(lib, driver, ex, stmts, NothingExecuted)
        case Err(e) => HttpError(500, e)
        case Ok(last) =>
          var (headers, results) := ShapeResult(last.rs);
          Success(QueryOut(q.connection, q.query, last.sql, headers, results, last.columns))
  }

  /** The query path's failure classification: 403 for an unknown
      connection, 422 exactly when formatting, parsing or generation fails,
      500 exactly when some statement fails to compile or execute, and a
      result only when every statement succeeded. */
  lemma RunQueryStatus(lib: Library, driver: Driver, registry: Registry, q: QueryIn)
    ensures var r := RunQuery(lib, driver, registry, q);
            var ex := Get(registry, q.connection);
            && (r.HttpError? && r.status == 403 <==> ex.None?)
            && (r.HttpError? && r.status == 422 <==> ex.Some? && CompilePhase(lib, ex.value, q.query).Err?)
            && (r.HttpError? && r.status == 422
                ==> r.detail == ParsingErrorPrefix + CompilePhase(lib, ex.value, q.query).error)
            && (r.HttpError? && r.status == 500
                <==> ex.Some? && CompilePhase(lib, ex.value, q.query).Ok?
                     && exists i :: 0 <= i < |CompilePhase(lib, ex.value, q.query).value|
                          && Step(lib, driver, ex.value, CompilePhase(lib, ex.value, q.query).value[i]).Err?)
            && (r.HttpError? && r.status == 500
                ==> r.detail == RunStatements(lib, driver, ex.value, CompilePhase(lib, ex.value, q.query).value, NothingExecuted).error)
            && (r.Success?
                <==> ex.Some? && CompilePhase(lib, ex.value, q.query).Ok?
                     && forall i :: 0 <= i < |CompilePhase(lib, ex.value, q.query).value|
                          ==> Step(lib, driver, ex.value, CompilePhase(lib, ex.value, q.query).value[i]).Ok?)
  {
    var ex := Get(registry, q.connection);
    if ex.Some? && CompilePhase(lib, ex.value, q.query).Ok? {
      LastStatementWins(lib, driver, ex.value, CompilePhase(lib, ex.value, q.query).value, NothingExecuted);
    }
  }

  /** A successful query reports exactly the last statement: its SQL, its
      columns, its headers and its rows; with no statement at all, an empty
      SQL text and no columns, headers or rows. */
  lemma RunQueryReportsLastStatement(
    lib: Library, driver: Driver, registry: Registry, q: QueryIn, ex: Executor, stmts: seq<Statement>)
    requires Get(registry, q.connection) == Some(ex)
    requires CompilePhase(lib, ex, q.query) == Ok(stmts)
    requires RunQuery(lib, driver, registry, q).Success?
    ensures var out := RunQuery(lib, driver, registry, q).body;
            |stmts| == 0 ==> out.generatedSql == "" && out.columns == [] && out.headers == [] && out.results == []
    ensures var out := RunQuery(lib, driver, registry, q).body;
            |stmts| > 0 ==>
              && Step(lib, driver, ex, stmts[|stmts| - 1]).Ok?
              && var last := Step(lib, driver, ex, stmts[|stmts| - 1]).value;
              && out.generatedSql == last.sql
              && out.columns == OutColumns(stmts[|stmts| - 1].outputColumns, lib.defaultNamespace)
              && out.headers == ShapeResult(last.rs).0
              && out.results == ShapeResult(last.rs).1
  {
    LastStatementWins(lib, driver, ex, stmts, NothingExecuted);
  }

  /** Every statement the compiler renders carries a limit of at most
      `STATEMENT_LIMIT`, with its output columns untouched. */
  lemma ExecutedLimitIsCapped(lib: Library, driver: Driver, ex: Executor, st: Statement)
    requires Step(lib, driver, ex, st).Ok?
    ensures lib.compileStatement(ex.dialect, st.(limit := Some(EffectiveLimit(st.limit))))
         == Ok(Step(lib, driver, ex, st).value.sql)
  {
  }

  /** A blank query fails in `safe_format_query`, inside the parsing
      `try`, so it is reported as a 422 parsing error. */
  lemma BlankQueryIsParsingError(lib: Library, driver: Driver, registry: Registry, q: QueryIn)
    requires Get(registry, q.connection).Some?
    requires AllSpace(q.query)
    ensures RunQuery(lib, driver, registry, q) == HttpError(422, ParsingErrorPrefix + IndexErrorMessage)
  {
  }

  /** `run_raw_query`: the text goes to the driver verbatim, with no
      compiler and no limit. */
  function RunRawQuery(driver: Driver, registry: Registry, q: QueryIn): (r: Reply<QueryOut>)
    ensures Get(registry, q.connection).None? <==> r == HttpError(401, NotValidConnection)
    ensures r.HttpError? ==> r.status in {401, 500}
    ensures Get(registry, q.connection).Some? ==>
              var reply := driver(Get(registry, q.connection).value.engine, q.query);
              && (r.Success? <==> reply.Ok? && reply.value.Some?)
              && (reply.Err? ==> r == HttpError(500, reply.error))
              && (reply == Ok(None) ==> r == HttpError(500, NoKeysMessage))
    ensures r.Success? ==> r.body.generatedSql == q.query && r.body.query == q.query
                           && r.body.connection == q.connection
    ensures r.Success? ==>
              && Get(registry, q.connection).Some?
              && var reply := driver(Get(registry, q.connection).value.engine, q.query);
              && reply.Ok? && reply.value.Some?
              && r.body.headers == reply.value.value.keys
              && r.body.results == ShapeResult(reply.value).1
    ensures r.Success? ==>
              && |r.body.columns| == |r.body.headers|
              && forall i :: 0 <= i < |r.body.columns| ==>
                   r.body.columns[i] == (r.body.headers[i], QueryOutColumn(r.body.headers[i], StringType, Key))
  {
    match Get(registry, q.connection)
    case None => HttpError(401, NotValidConnection)
    case Some(ex) =>
      match driver(ex.engine, q.query)
      case Err(e) => HttpError(500, e)
      case Ok(None) => HttpError(500, NoKeysMessage)
      case Ok(Some(cursor)) =>
        var columns := seq(|cursor.keys|, i requires 0 <= i < |cursor.keys| => RawColumn(cursor.keys[i]));
        var (headers, results) := ShapeResult(Some(cursor));
        Success(QueryOut(q.connection, q.query, q.query, headers, results, columns))
  }

  /** The raw path never looks at the connection's environment or dialect:
      two registries whose executors for the connection share an engine
      give the same reply. */
  lemma RawPathIgnoresEnvironment(driver: Driver, r1: Registry, r2: Registry, q: QueryIn)
    requires Get(r1, q.connection).Some? && Get(r2, q.connection).Some?
    requires Get(r1, q.connection).value.engine == Get(r2, q.connection).value.engine
    ensures RunRawQuery(driver, r1, q) == RunRawQuery(driver, r2, q)
  {
  }
}

=== FILE: preql.dfy ===
/** The parts of the preql library the backend uses. The parser, the SQL
    generator and `Environment.parse` are not modelled: they are the fields
    of a `Library` value, total functions that either return a result or
    fail with the message of the exception they would raise. */
module Preql {
  import opened Wrappers
  import opened OrderedMaps

  /** The dialect enumeration; the backend handles two members and rejects
      every other one. */
  datatype Dialect = BigQuery | DuckDb | OtherDialect(name: string)

  datatype Purpose = Key | Property | Metric | OtherPurpose(name: string)

  datatype DataType = StringType | IntegerType | OtherType(name: string)

  datatype Metadata = Metadata(description: Option<string>)

  datatype Concept = Concept(
    name: string,
    namespace: string,
    dataType: DataType,
    purpose: Purpose,
    metadata: Option<Metadata>)

  /** A schema environment: its concepts, keyed by address, in insertion
      order. Environments are values here, so a deep copy is the value itself. */
  datatype Environment = Environment(concepts: Entries<string, Concept>)

  const EmptyEnvironment: Environment := Environment([])

  /** An output column of a compiled statement. */
  datatype OutputColumn = OutputColumn(
    name: string,
    namespace: string,
    address: string,
    purpose: Purpose,
    dataType: DataType)

  /** A compiled statement: its output columns, its row limit (`None` when
      unset) and the rest of the plan, which only the library reads. */
  datatype Statement = Statement(
    outputColumns: seq<OutputColumn>,
    limit: Option<int>,
    plan: string)

  /** What `parse_text` hands to the SQL generator. */
  datatype Parsed = Parsed(statements: seq<string>)

  datatype Library = Library(
    /** `preql.constants.DEFAULT_NAMESPACE` */
    defaultNamespace: string,
    /** `parse_text(text, environment)` */
    parseText: (string, Environment) -> Result<Parsed, string>,
    /** `generator.generate_queries(environment, parsed)` for a dialect */
    generateQueries: (Dialect, Environment, Parsed) -> Result<seq<Statement>, string>,
    /** `generator.compile_statement(statement)` for a dialect */
    compileStatement: (Dialect, Statement) -> Result<string, string>,
    /** `environment.parse(contents, namespace=...)`, the namespace being
        absent for the default one */
    parseSource: (Environment, string, Option<string>) -> Result<Environment, string>)
}

=== FILE: query_text.dfy ===
/** `safe_format_query`: the query text handed to the parser. */
module QueryText {
  import opened Wrappers
  import opened Strings

  /** `str(e)` of the `IndexError` raised by `input[-1]` on an empty string. */
  const IndexErrorMessage: string := "string index out of range"

  /** Strips the text and appends `;` unless it already ends in one. A text
      that is empty after stripping makes `input[-1]` raise. */
  function FormatQuery(input: string): (r: Result<string, string>)
    ensures r.Err? <==> AllSpace(input)
    ensures r.Err? ==> r.error == IndexErrorMessage
    ensures r.Ok? ==> |r.value| > 0 && r.value[|r.value| - 1] == ';'
    ensures r.Ok? ==> IsStripped(r.value)
    ensures r.Ok? ==> Strip(input) <= r.value && |r.value| <= |Strip(input)| + 1
    ensures r.Ok? && |r.value| > |Strip(input)| ==> Strip(input)[|Strip(input)| - 1] != ';'
  {
    var text := Strip(input);
    if |text| == 0 then Err(IndexErrorMessage)
    else if text[|text| - 1] != ';' then Ok(text + ";")
    else Ok(text)
  }

  /** Formatting a formatted text changes nothing. */
  lemma FormatQueryIdempotent(input: string)
    requires FormatQuery(input).Ok?
    ensures FormatQuery(FormatQuery(input).value) == FormatQuery(input)
  {
    StripOfStripped(FormatQuery(input).value);
  }
}

=== FILE: rows.dfy ===
/** Result shaping shared by both query paths: headers and the row
    dictionaries `{"_index": idx, **dict(row.items())}`. */
module Rows {
  import opened Wrappers
  import opened OrderedMaps
  import opened Executors

  const IndexField: string := "_index"

  /** Row `i` of the result: `_index` first, then the driver's fields,
      which are merged later and so override a driver column that is itself
      called `_index`. */
  function ShapeRow(i: nat, row: seq<(string, Value)>): (r: Entries<string, Value>)
    ensures DistinctKeys(r)
    ensures |r| > 0 && r[0].0 == IndexField
    ensures Get(r, IndexField)
         == (if LastValue(row, IndexField).Some? then LastValue(row, IndexField) else Some(IntValue(i)))
    ensures forall k :: k != IndexField ==> Get(r, k) == LastValue(row, k)
  {
    var fields := FromPairs(row);
    var r := PutAll([(IndexField, IntValue(i))], fields);
    forall k ensures LastValue(fields, k) == LastValue(row, k) {
      GetIsLastValue(fields, k);
    }
    r
  }

  function ShapeRows(rows: seq<seq<(string, Value)>>): (r: seq<Entries<string, Value>>)
    ensures |r| == |rows|
    ensures forall i :: 0 <= i < |rows| ==> r[i] == ShapeRow(i, rows[i])
  {
    seq(|rows|, i requires 0 <= i < |rows| => ShapeRow(i, rows[i]))
  }

  /** `headers` and `results`: both empty when there is no result set,
      otherwise the driver's headers and one shaped row per fetched row. */
  function ShapeResult(rs: Option<Cursor>): (r: (seq<string>, seq<Entries<string, Value>>))
    ensures rs.None? ==> r.0 == [] && r.1 == []
    ensures rs.Some? ==> r.0 == rs.value.keys && |r.1| == |rs.value.rows|
    ensures rs.Some? ==> forall i :: 0 <= i < |r.1| ==>
              Get(r.1[i], IndexField)
                == (if LastValue(rs.value.rows[i], IndexField).Some?
                    then LastValue(rs.value.rows[i], IndexField) else Some(IntValue(i)))
    ensures rs.Some? ==> forall i, k :: 0 <= i < |r.1| && k != IndexField ==>
              Get(r.1[i], k) == LastValue(rs.value.rows[i], k)
  {
    match rs
    case None => ([], [])
    case Some(cursor) => (cursor.keys, ShapeRows(cursor.rows))
  }
}

=== FILE: schemas.dfy ===
/** The request and response bodies of the HTTP endpoints, and the reply
    of an endpoint: a body, or an `HTTPException` with status and detail. */
module Schemas {
  import opened Wrappers
  import opened OrderedMaps
  import opened Preql
  import opened Executors

  datatype Reply<T> = Success(body: T) | HttpError(status: int, detail: string)

  datatype QueryIn = QueryIn(connection: string, query: string)

  datatype QueryOutColumn = QueryOutColumn(name: string, dataType: DataType, purpose: Purpose)

  /** `QueryOut` without its timestamps and duration. */
  datatype QueryOut = QueryOut(
    connection: string,
    query: string,
    generatedSql: string,
    headers: seq<string>,
    results: seq<Entries<string, Value>>,
    columns: seq<(string, QueryOutColumn)>)

  datatype ModelSource = ModelSource(alias: string, contents: string)

  datatype FullModel = FullModel(name: string, sources: seq<ModelSource>)

  /** `ConnectionInSchema`; `extra` is `None` or a dictionary of strings. */
  datatype ConnectionIn = ConnectionIn(
    name: string,
    dialect: Dialect,
    extra: Option<map<string, string>>,
    model: Option<string>,
    fullModel: Option<FullModel>)

  /** `ConnectionListItem`, with `model` holding the connection's
      environment: what the listing evidently means to report. The schema
      declares `model` a `str`, which the environment is not. */
  datatype ConnectionListItem = ConnectionListItem(name: string, dialect: Dialect, model: Environment)

  /** `UIConcept`, with the lineage produced by `flatten_lineage`. */
  datatype UIConcept<L> = UIConcept(
    name: string,
    dataType: DataType,
    purpose: Purpose,
    description: Option<string>,
    namespace: string,
    key: string,
    lineage: L)

  datatype ModelOut<L> = ModelOut(name: string, concepts: seq<UIConcept<L>>)
}

=== FILE: sorting.dfy ===
/** Python's `list.sort(key=...)` for string keys: a stable sort, written
    as an insertion sort. The result is ordered by key, is a permutation of
    the input, and keeps elements with equal keys in their input order. */
module Sorting {
  import opened Strings

  ghost predicate SortedBy<T>(s: seq<T>, key: T -> string) {
    forall i, j :: 0 <= i < j < |s| ==> LexLe(key(s[i]), key(s[j]))
  }

  /** Every element of `s` has a key at or above `b`. */
  ghost predicate AllAtLeast<T>(s: seq<T>, key: T -> string, b: string) {
    forall i :: 0 <= i < |s| ==> LexLe(b, key(s[i]))
  }

  /** The elements of `s` whose key is `k`, in order. */
  function WithKey<T>(s: seq<T>, key: T -> string, k: string): (r: seq<T>)
    ensures |r| <= |s|
  {
    if |s| == 0 then []
    else (if key(s[0]) == k then [s[0]] else []) + WithKey(s[1..], key, k)
  }

  lemma {:induction false} WithKeyConcat<T>(a: seq<T>, b: seq<T>, key: T -> string, k: string)
    ensures WithKey(a + b, key, k) == WithKey(a, key, k) + WithKey(b, key, k)
  {
    if |a| > 0 {
      WithKeyConcat(a[1..], b, key, k);
      assert (a + b)[1..] == a[1..] + b;
    } else {
      assert a + b == b;
    }
  }

  lemma WithKeyOfSnoc<T>(s: seq<T>, x: T, key: T -> string, k: string)
    ensures WithKey(s + [x], key, k) == WithKey(s, key, k) + (if key(x) == k then [x] else [])
  {
    WithKeyConcat(s, [x], key, k);
    assert [x][1..] == [];
  }

  lemma {:induction false} WithKeyAbsent<T>(s: seq<T>, key: T -> string, k: string)
    requires forall i :: 0 <= i < |s| ==> key(s[i]) != k
    ensures WithKey(s, key, k) == []
  {
    if |s| > 0 {
      WithKeyAbsent(s[1..], key, k);
    }
  }

  /** Inserts `x` into `t` after the leading elements whose keys are not
      above `x`'s; on a sorted `t` that is after every such element. */
  function Insert<T>(x: T, t: seq<T>, key: T -> string): (r: seq<T>)
    ensures |r| == |t| + 1
  {
    if |t| > 0 && LexLe(key(t[0]), key(x)) then [t[0]] + Insert(x, t[1..], key)
    else [x] + t
  }

  lemma {:induction false} InsertPermutes<T>(x: T, t: seq<T>, key: T -> string)
    ensures multiset(Insert(x, t, key)) == multiset(t) + multiset{x}
  {
    if |t| > 0 && LexLe(key(t[0]), key(x)) {
      InsertPermutes(x, t[1..], key);
      assert t == [t[0]] + t[1..];
    }
  }

  lemma {:induction false} InsertAtLeast<T>(x: T, t: seq<T>, key: T -> string, b: string)
    requires AllAtLeast(t, key, b) && LexLe(b, key(x))
    ensures AllAtLeast(Insert(x, t, key), key, b)
  {
    if |t| > 0 && LexLe(key(t[0]), key(x)) {
      InsertAtLeast(x, t[1..], key, b);
    }
  }

  lemma {:induction false} InsertSorted<T>(x: T, t: seq<T>, key: T -> string)
    requires SortedBy(t, key)
    ensures SortedBy(Insert(x, t, key), key)
  {
    if |t| > 0 {
      var h := key(t[0]);
      if LexLe(h, key(x)) {
        InsertSorted(x, t[1..], key);
        InsertAtLeast(x, t[1..], key, h);
      } else {
        LexLeTotal(h, key(x));
        forall i | 0 <= i < |t| ensures LexLe(key(x), key(t[i])) {
          if i > 0 {
            LexLeTransitive(key(x), h, key(t[i]));
          }
        }
      }
    }
  }

  /** On a sorted list, an insertion adds `x` to the run of its own key, at
      the end. */
  lemma {:induction false} InsertWithKey<T>(x: T, t: seq<T>, key: T -> string, k: string)
    requires SortedBy(t, key)
    ensures WithKey(Insert(x, t, key), key, k)
         == WithKey(t, key, k) + (if key(x) == k then [x] else [])
    decreases |t|, 1
  {
    if |t| > 0 && LexLe(key(t[0]), key(x)) {
      InsertWithKeyAfter(x, t, key, k);
    } else {
      var r := [x] + t;
      assert Insert(x, t, key) == r;
      assert r[0] == x && r[1..] == t;
      if key(x) == k {
        forall i | 0 <= i < |t| ensures key(t[i]) != k {
          if key(t[i]) == k {
            LexLeReflexive(k);
          }
        }
        WithKeyAbsent(t, key, k);
      }
    }
  }

  lemma {:induction false} InsertWithKeyAfter<T>(x: T, t: seq<T>, key: T -> string, k: string)
    requires SortedBy(t, key)
    requires |t| > 0 && LexLe(key(t[0]), key(x))
    ensures WithKey(Insert(x, t, key), key, k)
         == WithKey(t, key, k) + (if key(x) == k then [x] else [])
    decreases |t|, 0
  {
    var head := if key(t[0]) == k then [t[0]] else [];
    var xPart := if key(x) == k then [x] else [];
    var rest := Insert(x, t[1..], key);
    assert SortedBy(t[1..], key);
    InsertWithKey(x, t[1..], key, k);
    assert WithKey(rest, key, k) == WithKey(t[1..], key, k) + xPart;
    var r := [t[0]] + rest;
    assert Insert(x, t, key) == r;
    assert r[0] == t[0] && r[1..] == rest;
    assert WithKey(r, key, k) == head + WithKey(rest, key, k);
    assert WithKey(t, key, k) == head + WithKey(t[1..], key, k);
  }

  function SortBy<T>(s: seq<T>, key: T -> string): (r: seq<T>)
    ensures SortedBy(r, key)
    ensures |r| == |s|
  {
    if |s| == 0 then []
    else
      var init := SortBy(s[..|s| - 1], key);
      InsertSorted(s[|s| - 1], init, key);
      Insert(s[|s| - 1], init, key)
  }

  /** The sorted list is a permutation of the input. */
  lemma {:induction false} SortByPermutes<T>(s: seq<T>, key: T -> string)
    ensures multiset(SortBy(s, key)) == multiset(s)
  {
    if |s| > 0 {
      SortByPermutes(s[..|s| - 1], key);
      InsertPermutes(s[|s| - 1], SortBy(s[..|s| - 1], key), key);
      assert s == s[..|s| - 1] + [s[|s| - 1]];
    }
  }

  /** Stability: for every key, the elements carrying it appear in the
      sorted list in the same order as in the input. */
  lemma {:induction false} SortByIsStable<T>(s: seq<T>, key: T -> string, k: string)
    ensures WithKey(SortBy(s, key), key, k) == WithKey(s, key, k)
  {
    if |s| > 0 {
      var init := s[..|s| - 1];
      var last := s[|s| - 1];
      var part := if key(last) == k then [last] else [];
      var sorted := SortBy(init, key);
      assert SortBy(s, key) == Insert(last, sorted, key);
      InsertWithKey(last, sorted, key, k);
      SortByIsStable(init, key, k);
      assert WithKey(SortBy(s, key), key, k) == WithKey(init, key, k) + part;
      WithKeyOfSnoc(init, last, key, k);
      assert s == init + [last];
    }
  }
}

=== FILE: strings.dfy ===
/** The Python string operations the backend relies on, over `seq<char>`:
    `str.strip()`, `str.replace(".", "_")`, `str.split(".")[-1]`,
    `str.startswith("_")` and the code-point order used by `<`. */
module Strings {

  /** The code points for which Python's `str.isspace()` holds; these are
      what `str.strip()` with no argument removes. */
  const Whitespace: set<char> := {
    '\t', '\n', '\U{0B}', '\U{0C}', '\r', '\U{1C}', '\U{1D}', '\U{1E}', '\U{1F}',
    ' ', '\U{85}', '\U{A0}', '\U{1680}',
    '\U{2000}', '\U{2001}', '\U{2002}', '\U{2003}', '\U{2004}', '\U{2005}',
    '\U{2006}', '\U{2007}', '\U{2008}', '\U{2009}', '\U{200A}',
    '\U{2028}', '\U{2029}', '\U{202F}', '\U{205F}', '\U{3000}'
  }

  predicate IsSpace(c: char) {
    c in Whitespace
  }

  predicate AllSpace(s: string) {
    forall i :: 0 <= i < |s| ==> IsSpace(s[i])
  }

  /** Neither end of `s` is whitespace. */
  predicate IsStripped(s: string) {
    |s| == 0 || (!IsSpace(s[0]) && !IsSpace(s[|s| - 1]))
  }

  /** The index of the first non-whitespace character of `s` at or after
      `i`, or `|s|`: where `s.lstrip()` starts. */
  function SkipSpace(s: string, i: nat): (j: nat)
    requires i <= |s|
    ensures i <= j <= |s|
    ensures forall k :: i <= k < j ==> IsSpace(s[k])
    ensures j == |s| || !IsSpace(s[j])
    decreases |s| - i
  {
    if i < |s| && IsSpace(s[i]) then SkipSpace(s, i + 1) else i
  }

  /** The end of `s[lo..hi]` once its trailing whitespace is dropped:
      where `s.rstrip()` ends. */
  function DropSpace(s: string, lo: nat, hi: nat): (j: nat)
    requires lo <= hi <= |s|
    ensures lo <= j <= hi
    ensures forall k :: j <= k < hi ==> IsSpace(s[k])
    ensures j == lo || !IsSpace(s[j - 1])
  {
    if lo < hi && IsSpace(s[hi - 1]) then DropSpace(s, lo, hi - 1) else hi
  }

  /** `s.strip()`: `s` without its leading and trailing whitespace. */
  function Strip(s: string): (r: string)
    ensures IsStripped(r)
    ensures |r| == 0 <==> AllSpace(s)
  {
    var i := SkipSpace(s, 0);
    s[i..DropSpace(s, i, |s|)]
  }

  /** The reference characterisation of `Strip`: whitespace, then a
      non-empty text with no whitespace at its ends, then whitespace, strips
      to that text. */
  lemma StripUnique(a: string, m: string, c: string)
    requires AllSpace(a) && AllSpace(c)
    requires IsStripped(m) && |m| > 0
    ensures Strip(a + m + c) == m
  {
    var s := a + m + c;
    var i := SkipSpace(s, 0);
    assert s[|a|] == m[0];
    assert i == |a|;
    var j := DropSpace(s, i, |s|);
    assert s[|a| + |m| - 1] == m[|m| - 1];
    assert j == |a| + |m|;
    assert s[i..j] == m;
  }

  /** A string whose ends are not whitespace is its own strip. */
  lemma StripOfStripped(s: string)
    requires IsStripped(s)
    ensures Strip(s) == s
  {
  }

  /** Stripping twice is stripping once. */
  lemma StripIdempotent(s: string)
    ensures Strip(Strip(s)) == Strip(s)
  {
    StripOfStripped(Strip(s));
  }

  /** `s.replace(from, to)` for single characters. */
  function ReplaceChar(s: string, from: char, to: char): (r: string)
    ensures |r| == |s|
    ensures forall i :: 0 <= i < |s| ==> r[i] == (if s[i] == from then to else s[i])
    ensures from != to ==> from !in r
  {
    if |s| == 0 then []
    else [if s[0] == from then to else s[0]] + ReplaceChar(s[1..], from, to)
  }

  /** `s.split(sep)[-1]`: the text after the last `sep`, or all of `s`
      when `sep` does not occur. */
  function LastSegment(s: string, sep: char): (r: string)
    ensures sep !in r
    ensures |r| <= |s| && r == s[|s| - |r|..]
    ensures |r| < |s| ==> s[|s| - |r| - 1] == sep
    ensures sep !in s ==> r == s
  {
    if |s| == 0 then []
    else if s[|s| - 1] == sep then []
    else
      var r := LastSegment(s[..|s| - 1], sep);
      assert s[|s| - |r| - 1..] == s[..|s| - 1][|s| - 1 - |r|..] + [s[|s| - 1]];
      r + [s[|s| - 1]]
  }

  predicate StartsWith(s: string, prefix: string) {
    |prefix| <= |s| && s[..|prefix|] == prefix
  }

  /** Python's `a <= b` on `str`: lexicographic by code point. */
  predicate LexLe(a: string, b: string) {
    |a| == 0 || (|b| > 0 && (a[0] < b[0] || (a[0] == b[0] && LexLe(a[1..], b[1..]))))
  }

  lemma {:induction false} LexLeReflexive(a: string)
    ensures LexLe(a, a)
  {
    if |a| > 0 {
      LexLeReflexive(a[1..]);
    }
  }

  lemma {:induction false} LexLeTransitive(a: string, b: string, c: string)
    requires LexLe(a, b) && LexLe(b, c)
    ensures LexLe(a, c)
  {
    if |a| > 0 && a[0] == b[0] == c[0] {
      LexLeTransitive(a[1..], b[1..], c[1..]);
    }
  }

  lemma {:induction false} LexLeTotal(a: string, b: string)
    ensures LexLe(a, b) || LexLe(b, a)
  {
    if |a| > 0 && |b| > 0 && a[0] == b[0] {
      LexLeTotal(a[1..], b[1..]);
    }
  }
}

=== FILE: wrappers.dfy ===
/** Option and Result values used for the fallible operations of the model.
    `Result` is failure-compatible, so `:-` propagates an `Err`, the way a
    Python exception leaves the enclosing block. */
module Wrappers {

  datatype Option<+T> = None | Some(value: T)

  datatype Result<+T, +E> = Ok(value: T) | Err(error: E) {

    predicate IsFailure() {
      Err?
    }

    function PropagateFailure<U>(): Result<U, E>
      requires Err?
    {
      Err(error)
    }

    function Extract(): T
      requires Ok?
    {
      value
    }
  }
}
